=== FILE: README.md ===
# Audit server: pre-generation decisions

This project models what the brand-audit server (`server.js`) decides before it
asks the language model for an analysis. A `POST /api/analyze` request carries
a quiz score (0-60 on the printed scale), four free-text answers (the count is
not checked), and optional name, brand and segment fields. The handler does four things:

1. It refuses the request when the score or the answers are missing, or the score is 0.
2. It sends a fixed rebuff, and calls nothing, when `isInputGibberish` judges the answers careless.
3. Otherwise it picks one of six closing directives from the score band.
4. It builds the prompt and calls the generator exactly once. A failed call becomes a 500.

Modules, in dependency order:

- `Optional`: an option type for absent JSON fields.
- `Text`: the two JavaScript string primitives the filter uses.
  - `trim` uses the ECMAScript white-space and line-terminator set.
  - `toLowerCase` is restricted to ASCII and the Polish capitals.
- `Letters`: the vowel and consonant classes of the filter's regexes.
  - It counts letters in each class.
  - It scans for a run of five consonants. That scan is proved equal to "some window of five consonants exists".
- `Repetition`: the regex `/^(.{1,3})\1{2,}$/` as a period test.
  - The test is proved equal to "the string is a block of 1-3 non-line-terminator characters repeated at least three times".
- `Classifier`: `isInputGibberish`.
  - A per-answer classification follows `isInputGibberish`'s first-match-wins order.
  - A tally over all answers feeds the three rejection rules.
  - The loop appears twice: as a recursive function, and as a method `AssessQuality` proved equal to it.
- `Tiers`: the six-band if-chain that selects the closing directive, and the six-line scale printed in the prompt.
  - Each score in 0-60 lies on exactly one printed line, and the chain's band is that line.
- `Personalization`: the fallbacks for user name, brand name and segment.
- `Analysis`: the handler.
  - The generator is a function parameter `Prompt -> Option<string>`. `None` stands for a call that throws.
  - The prompt is the record of interpolated fields, not the full text.

Arithmetic notes:

- `isInputGibberish` gives a long answer weight 1 and a medium answer weight 0.5. The model counts half-units instead: `validAnswers < 2` becomes `halves < 4`.
- The test `vowels / (vowels + consonants) < 0.15` is stated as `100 * vowels < 15 * (vowels + consonants)` over the integers. The two agree for every answer with fewer than about 10^15 letters.

The model follows the code in three places where a reader might expect otherwise:

- No range check is made on the score. Scores above 60 select the top band and negative scores select the bottom band.
- The number of answers is never checked. Missing answers print as `undefined` in the prompt.
- Only one set of closing directives exists. There is no separate peer-level template.

The phrase list includes "trudno powiedzieć", which has 17 characters. The list is consulted only for answers under 15 characters, so that entry never matches (`Classifier.ListedPhraseUnreachable`).

## Model

| member | source | states |
|---|---|---|
| Text.LowerCharMeaning | server.js:62 | lower-casing keeps white space as white space, maps A-Z into a-z, changes any other character only from a Polish capital, and maps A-Z and each of ĄĆĘŁŃÓŚŹŻ to its own small letter |
| Text.Lower | server.js:62 | lower-casing keeps the length; each character maps as `Text.LowerCharMeaning` states |
| Text.TrimStartMeaning | server.js:62 | the left trim drops exactly a white-space prefix and leaves a result that is empty or starts with a non-white-space character |
| Text.TrimEndMeaning | server.js:62 | the right trim drops exactly a white-space suffix and leaves a result that is empty or ends with a non-white-space character |
| Text.Trim | server.js:62 | trimming never lengthens a string; its meaning is stated by `Text.TrimMeaning` |
| Text.TrimMeaning | server.js:62 | `trim` returns an infix of its input with only white space cut on either side; its ends are not white space; it is empty exactly when the input is all white space |
| Text.TrimIdempotent | server.js:62 | trimming twice gives the same result as trimming once |
| Text.Normalize | server.js:62 | lower-casing then trimming never lengthens an answer; its meaning is stated by `Text.NormalizeMeaning` |
| Text.NormalizeMeaning | server.js:62-63 | a lower-cased, trimmed answer is empty exactly when the raw answer is blank, and its ends are not white space |
| Letters.ClassesDisjoint | server.js:92-93 | no character is both a vowel and a consonant |
| Letters.OutsideBothClasses | server.js:92-93 | q, v, x and the digits are neither vowels nor consonants |
| Letters.CountsBounded | server.js:92-93 | the vowel count plus the consonant count never exceeds the answer's length |
| Letters.ConsonantRunTestCorrect | server.js:94 | the left-to-right scan finds a run of five consonants exactly when some window of five consecutive consonants exists |
| Letters.LeadingConsonants | server.js:94 | the leading run has only consonants and stops at the first non-consonant |
| Letters.ScanRunMeansWindow | server.js:94 | a scan carrying a run of length `run` succeeds exactly when the carried run plus the leading consonants reach five, or a later window exists |
| Repetition.RepetitionTestCorrect | server.js:80 | the period test succeeds exactly when the answer is a block of one to three non-line-terminator characters repeated three or more times |
| Repetition.TilingIsRepeatedBlock | server.js:80 | an answer without line terminators that its first one to three characters tile at least three times matches the regular expression |
| Repetition.RepeatedBlockTiles | server.js:80 | every string the regular expression matches passes the period test |
| Repetition.RepeatNoLineTerminator | server.js:80 | repeating a block that `.` matches gives a string that `.` matches throughout |
| Repetition.RepeatPeriodic | server.js:80 | a repeated block is periodic with the block's length and starts with the block |
| Repetition.PeriodicIsRepeat | server.js:80 | a string periodic with the block's length, whose length is a multiple of it and which starts with the block, is that block repeated |
| Classifier.PhraseTestMeaning | server.js:72-73 | an answer matches the short-phrase list exactly when it equals a listed phrase or a listed phrase followed by one full stop |
| Classifier.ClassificationMeaning | server.js:61-106 | first match wins: blank, listed short phrase (only under 15 characters), repeated block, digits only, then consonant-heavy with a five-consonant run; an answer contributes exactly when none applies; it weighs 2 halves from 20 characters, 1 half from 10, otherwise 0 |
| Classifier.ClassifyNormalized | server.js:63-106 | the first-match-wins chain; its meaning is stated by `Classifier.ClassificationMeaning` |
| Classifier.TallyOf | server.js:57-107 | the tally's length is the sum of the trimmed lengths; suspicious answers number at most the answers; the weight is at most two halves per non-suspicious answer |
| Classifier.TotalLengthCountsEveryAnswer | server.js:68 | the length total includes every non-blank answer, suspicious ones too |
| Classifier.SuspiciousCountExact | server.js:61-99 | the suspicious count is the number of answers classified suspicious |
| Classifier.BlankAnswerStep | server.js:63-66 | a blank answer adds one to the suspicious count and nothing to the length or the weight |
| Classifier.SuspiciousAnswerStillCounted | server.js:68-75 | an answer flagged after the length is counted still adds its length, and adds no weight |
| Classifier.PhraseCheckLengthGuarded | server.js:71-77 | an answer of 15 or more characters is never flagged by the phrase list |
| Classifier.ListedPhraseUnreachable | server.js:70-77 | "trudno powiedzieć" is listed but has 17 characters, so an answer that normalises to "trudno powiedzieć", with or without a final period, is never flagged by the phrase list |
| Classifier.FewAnswersRejected | server.js:112 | fewer than two answers can never reach a weight of 2, so they are always rejected |
| Classifier.ShortInputRejected | server.js:110 | answers whose trimmed lengths total under 50 are rejected |
| Classifier.ManySuspiciousRejected | server.js:111 | more than two suspicious answers are rejected |
| Classifier.TotalTrimmedLengthAtMost | server.js:68 | the trimmed total is at most the per-answer bound times the number of answers |
| Classifier.TerseAnswersRejected | server.js:110 | four or fewer answers of at most 12 characters each are rejected |
| Classifier.BlankAnswersRejected | server.js:63-66 | all-blank answers are rejected |
| Classifier.BlankTotalZero | server.js:63-68 | all-blank answers give a length total of zero |
| Classifier.OneLetterAnswersRejected | server.js:110 | the answers "a", "b", "c", "d" are rejected |
| Classifier.SubstantialTally | server.js:102-103 | answers that are each substantial (20 or more characters, no flag) give no suspicious count, full weight, and at least 20 characters each |
| Classifier.SubstantialAnswersAccepted | server.js:109-114 | three or more substantial answers are accepted |
| Classifier.TallyExtend | server.js:61-107 | one more loop iteration steps the tally of the prefix by the next answer |
| Classifier.CheckAnswer | server.js:63-106 | the checks in `isInputGibberish`'s order with early exits flag an answer exactly when it is blank, a listed short phrase under 15 characters, a repeated block of one to three characters, all digits, or consonant-heavy (vowels under 15% of letters) with a window of five consonants; an unflagged answer weighs 2 halves exactly from 20 characters and 0 exactly below 10 |
| Classifier.TallyAnswer | server.js:61-106 | one pass of the loop body adds the trimmed length before any check, then steps the counters exactly as the reference tally does |
| Classifier.AssessQuality | server.js:56-115 | the loop computes the same verdict as the reference tally; its length total is the sum of the trimmed lengths; its suspicious count is the number of suspicious answers; it rejects exactly when length < 50, suspicious > 2 or weight < 2 |
| Classifier.IsInputGibberish | server.js:56-115 | the filter's verdict; decided by `Classifier.AssessQuality` and characterised by `Classifier.ShortInputRejected`, `Classifier.ManySuspiciousRejected`, `Classifier.FewAnswersRejected` and `Classifier.SubstantialAnswersAccepted` |
| Tiers.TierOf | server.js:139-152 | the band's rank is the number of the bounds 15, 25, 35, 45, 54 that the score exceeds |
| Tiers.CountExceeded | server.js:140-150 | the number of bounds exceeded is 0 up to 15, 1 up to 25, 2 up to 35, 3 up to 45, 4 up to 54, and 5 above |
| Tiers.TierMonotone | server.js:139-152 | a higher score never selects a lower band |
| Tiers.TierBoundaries | server.js:140-150 | each bound belongs to the band below it: 15/16, 25/26, 35/36, 45/46 and 54/55 fall on different sides |
| Tiers.OutOfRangeScores | server.js:140-151 | scores above 60 select the top band and negative scores the bottom band, since the chain has no range check |
| Tiers.ScaleTilesRange | server.js:176-181 | the printed lines start at 0, end at 60, and each line ends at the chain's bound with the next starting one higher |
| Tiers.TierAgreesWithScale | server.js:139-181 | every score from 0 to 60 lies on exactly one printed line, and that line is the band the chain selects |
| Personalization.TrimmedOr | server.js:128-129 | a supplied value is used trimmed unless it is blank, otherwise the default is used; the result is non-empty and already trimmed |
| Personalization.SegmentOf | server.js:129-130 | only the exact value "personal" selects the personal segment; stated by `Analysis.BrandDefaultFollowsSegment` |
| Personalization.SegmentContext | server.js:130 | the segment sentence interpolated into the prompt; stated to depend on the segment field only by `Analysis.PersonalizationIgnoresScore` |
| Personalization.SegmentClause | server.js:193 | the segment-specific instruction; stated to depend on the segment field only by `Analysis.PersonalizationIgnoresScore` |
| Personalization.ResolveUserName | server.js:128 | the user name is the trimmed supplied name unless it is absent or blank, then "Użytkownik" |
| Personalization.ResolveBrandName | server.js:129 | the brand is the trimmed supplied brand unless it is absent or blank, then the segment's default |
| Personalization.DefaultsAreTrimmed | server.js:128-129 | the three default strings are already trimmed |
| Personalization.TrimUnpadded | server.js:128-129 | a non-empty string without white space at either end is its own trim |
| Personalization.ResolutionIdempotent | server.js:128-129 | feeding a resolved name or brand back in resolves to itself |
| Analysis.AnswerSlots | server.js:184-187 | four or more answers put exactly their first four in the prompt; fewer are followed by "undefined" up to four slots |
| Analysis.StatusMatchesBody | server.js:123-223 | a 200 always carries an analysis; a 400 carries exactly the missing-data error and a 500 exactly the generation error |
| Analysis.Validate | server.js:123-125 | a request is refused exactly when the score is falsy (missing or 0) or the answers are missing; an accepted score and answers are passed on unchanged |
| Analysis.BuildPrompt | server.js:128-193 | the prompt carries the score verbatim with the band the chain selects for it, the knowledge text, the four answer slots of the request's answers, the segment the request selects, and the resolved name and brand, which are non-empty and already trimmed |
| Analysis.Respond | server.js:123-218 | a refused request is "missing data"; validated answers that fail the gate are rebuffed; the generator is called at most once, and exactly when validated answers pass the gate; it is then called with the prompt built from the request, and the response is its text or, when it fails, the 500 |
| Analysis.Handle | server.js:118-224 | a falsy score or missing answers give "missing data" with no call; rejected answers give the rebuff with no call; otherwise exactly one call, whose prompt carries the score, its band, the four answer slots, the resolved name, brand and segment, and the loaded knowledge text or, when loading failed, the placeholder of line 35; the response is the generated text or a generation failure |
| Analysis.GeneratorCalledOnlyWhenAccepted | server.js:123-214 | the generator is called at most once, and exactly when the score is truthy, the answers are present and the gate accepts them |
| Analysis.RefusalIgnoresGenerator | server.js:123-136 | a refused or rebuffed request makes no call, so its outcome is the same whatever the generator would do |
| Analysis.PromptIndependentOfGenerator | server.js:157-214 | the prompts handed over depend on the request and the knowledge text only |
| Analysis.ZeroScoreIsBadRequest | server.js:123-125 | a score of 0 is refused as missing data, although 0 lies on the first printed line |
| Analysis.FewAnswersNeverGenerate | server.js:133-136 | fewer than two answers get the rebuff and never reach the generator |
| Analysis.MissingAnswerPrintsUndefined | server.js:184-187 | three substantial answers are accepted, and the fourth slot prints "undefined" |
| Analysis.PersonalizationIgnoresScore | server.js:128-130 | requests with the same name, brand and segment fields get the same name, brand and segment sentences whatever their scores and answers |
| Analysis.BrandDefaultFollowsSegment | server.js:129-130 | without a brand name the placeholder is the personal one exactly for the segment "personal", and the company one otherwise |
| Analysis.ValidateIntended | server.js:123-125 | the corrected validation accepts exactly when both fields are present; it differs from the validation as written exactly for a score of 0 with answers present, and agrees wherever that one accepts |
| Analysis.HandleIntended | server.js:118-224 | the corrected handler never answers "missing data" when both fields are present, and agrees with the handler as written on every score other than 0; for a score of 0 with answers present it applies the same quality gate, rebuffing gibberish without a call, and otherwise sends the usual prompt in the bottom band and returns the generator's text or the 500 |
| Analysis.ZeroScoreAcceptedWhenIntended | server.js:123-125 | under the corrected validation a score of 0 with substantial answers reaches the generator in the bottom band |

## Left out

- HTTP plumbing is not modelled: Express routing, CORS headers and the `OPTIONS` short-cut, static file serving, `listen`, and JSON body parsing.
- Configuration and start-up I/O are not modelled: dotenv and reading the knowledge file. The file's content is a parameter, and a failed load is `KnowledgeText(None)`.
- The Gemini client, model selection and the `async`/`await` sequencing are not modelled. The generator is a function parameter.
- The full prompt and the six directive texts are not reproduced. The prompt is modelled as the record of its interpolated fields, and the directive as its `Tier`. The segment sentences of lines 130 and 193 are reproduced exactly.
- Text.LowerChar: maps only ASCII A-Z and the nine Polish capitals. Other Unicode case mappings of `toLowerCase` are left out, including those that change length.
- String lengths and regular-expression matching work on `char`s. JavaScript counts UTF-16 code units, so a character outside the Basic Multilingual Plane counts twice in every length there. Without the `u` flag, `.` in `/^(.{1,3})\1{2,}$/` matches one code unit, so a block such as two emoji plus a letter is one to three characters here but five code units in JavaScript, and only the model flags its repetition.
- `answers` is modelled as a list of strings. A non-empty JSON string there is truthy and `for…of` walks it character by character, so it is always rebuffed; `0`, `false` and `""` are falsy and get the 400 at server.js:123; a non-zero number, `true` or a JSON object reaches `for…of` at server.js:61, which throws and gives a 500. None of these cases is modelled.
- Only strings are modelled as answer elements and names. Non-string JSON values, which make `toLowerCase` or `trim` throw and so give a 500, are left out.
- Scores are integers. Fractional, string-typed and `NaN` scores are left out.
- Classifier.ClassificationMeaning: states the 0.15 vowel-ratio test over the integers. It agrees with the double-precision comparison only for strings shorter than about 10^15 characters.
- `test-prompt.js` is a separate manual script and is not part of this model.
- Logging to the console is not modelled.

## Findings

| source | as written | input that shows it | evidently intended | confidence | as-written member | corrected member |
|---|---|---|---|---|---|---|
| server.js:123-125 | `!score` treats a score of 0 as missing and answers 400 "Brakujące dane w zapytaniu." | score 0 with four substantial answers | 0 lies on the printed 0-15 line, so only an absent score should be refused | high (not executed) | Analysis.ZeroScoreIsBadRequest | Analysis.HandleIntended |

=== FILE: analysis.dfy ===
/** The `/api/analyze` handler without its HTTP and Gemini plumbing:
    validation, then the quality gate, then the tier directive and the
    prompt, then exactly one call to the text generator. The generator is a
    parameter; `None` stands for a call that throws. */
module Analysis {

  import opened Optional
  import opened Text
  import opened Classifier
  import opened Tiers
  import opened Personalization

  /** The JSON body; an absent or null field is `None`. */
  datatype Request = Request(
    score: Option<int>,
    answers: Option<seq<string>>,
    userName: Option<string>,
    brandName: Option<string>,
    userSegment: Option<string>)

  /** The fields interpolated into the prompt sent to the generator. */
  datatype Prompt = Prompt(
    knowledge: string,
    userName: string,
    brandName: string,
    segment: Segment,
    score: int,
    answers: seq<string>,
    tier: Tier)

  /** The four ways the handler answers. */
  datatype Response =
    | MissingData              // 400, the request lacks a score or answers
    | Rebuffed                 // 200, the fixed rebuff for careless answers
    | Generated(text: string)  // 200, the generator's analysis
    | GenerationFailed         // 500, the generator call threw

  /** The JSON body sent back: `{ error }` or `{ analysis }`. */
  datatype Body = ErrorBody(error: string) | AnalysisBody(analysis: string)

  /** A response together with the prompts handed to the generator, in order. */
  datatype Exchange = Exchange(response: Response, calls: seq<Prompt>)

  const MissingDataMessage: string := "Brakujące dane w zapytaniu."
  const GenerationFailedMessage: string := "Wystąpił błąd podczas generowania analizy."
  const KnowledgePlaceholder: string := "[Błąd ładowania bazy wiedzy]"

  /** The fixed rebuff returned, with status 200, for a rejected answer set. */
  const SharpResponse: string := "Twoje odpowiedzi na pytania otwarte wydają się być przypadkowe lub zbyt lakoniczne. Prawdziwa diagnoza strategiczna wymaga refleksji i zaangażowania. Jeśli brakuje czasu na rzetelne wypełnienie audytu, prawdopodobnie trudno będzie znaleźć go na wdrożenie fundamentalnych zmian w firmie. Gdy będziesz gotów na pogłębioną analizę, wróć i spróbuj ponownie."

  /** The HTTP status of a response. */
  function StatusCode(r: Response): nat {
    match r
    case MissingData => 400
    case Rebuffed => 200
    case Generated(_) => 200
    case GenerationFailed => 500
  }

  /** The JSON body of a response. */
  function BodyOf(r: Response): Body {
    match r
    case MissingData => ErrorBody(MissingDataMessage)
    case Rebuffed => AnalysisBody(SharpResponse)
    case Generated(text) => AnalysisBody(text)
    case GenerationFailed => ErrorBody(GenerationFailedMessage)
  }

  /** Success carries an analysis and failure an error: status 200 exactly
      for an analysis body, and each error has its own status. */
  lemma StatusMatchesBody(r: Response)
    ensures StatusCode(r) == 200 <==> BodyOf(r).AnalysisBody?
    ensures BodyOf(r) == ErrorBody(MissingDataMessage) <==> StatusCode(r) == 400
    ensures BodyOf(r) == ErrorBody(GenerationFailedMessage) <==> StatusCode(r) == 500
  {
  }

  /** What a template literal prints for an array index past the end. */
  const Undefined: string := "undefined"

  /** The knowledge text interpolated into every prompt: the loaded file, or
      a placeholder when loading failed at start-up. */
  function KnowledgeText(loaded: Option<string>): string {
    match loaded
    case Some(text) => text
    case None => KnowledgePlaceholder
  }

  /** JavaScript truthiness of `score`: absent and zero are both falsy. */
  predicate ScoreIsTruthy(score: Option<int>) {
    score.Some? && score.value != 0
  }

  /** `answers[0]` … `answers[3]` as interpolated: four or more answers
      fill the slots with the first four, fewer are padded with
      "undefined". */
  function AnswerSlots(answers: seq<string>): (slots: seq<string>)
    ensures |answers| >= 4 ==> slots == answers[..4]
    ensures |answers| < 4 ==> slots == answers + seq(4 - |answers|, _ => Undefined)
  {
    var slots := seq(4, i requires 0 <= i < 4 => if i < |answers| then answers[i] else Undefined);
    assert |answers| < 4 ==> slots == answers + seq(4 - |answers|, _ => Undefined) by {
      if |answers| < 4 {
        var padded := answers + seq(4 - |answers|, _ => Undefined);
        assert forall i :: 0 <= i < 4 ==> slots[i] == padded[i];
      }
    }
    slots
  }

  /** The handler's check `!score || !answers`: the validated score and
      answers, or `None` for a 400. A score of 0 is refused as missing. */
  function Validate(req: Request): (v: Option<(int, seq<string>)>)
    ensures req.score.None? || req.answers.None? ==> v.None?
    ensures v.Some? ==> v.value == (req.score.value, req.answers.value) && v.value.0 != 0
    ensures v.None? <==> !ScoreIsTruthy(req.score) || req.answers.None?
  {
    if !ScoreIsTruthy(req.score) || req.answers.None? then None
    else Some((req.score.value, req.answers.value))
  }

  /** The prompt for an accepted request: the score verbatim with its band,
      four answer slots, and a non-empty, trimmed name and brand. */
  function BuildPrompt(req: Request, score: int, answers: seq<string>, knowledge: string): (p: Prompt)
    ensures p.score == score && Rank(p.tier) == BoundsExceeded(score, UpperBounds)
    ensures p.knowledge == knowledge && |p.answers| == 4
    ensures p.userName != [] && Trim(p.userName) == p.userName
    ensures p.brandName != [] && Trim(p.brandName) == p.brandName
    ensures p.answers == AnswerSlots(answers) && p.segment == SegmentOf(req.userSegment)
    ensures p.userName == ResolveUserName(req.userName) && p.brandName == ResolveBrandName(req.brandName, p.segment)
  {
    var segment := SegmentOf(req.userSegment);
    Prompt(knowledge, ResolveUserName(req.userName), ResolveBrandName(req.brandName, segment),
           segment, score, AnswerSlots(answers), TierOf(score))
  }

  /** Everything after validation: the gate, then one generator call. A
      refused request is "missing data"; the generator is called at most
      once, and exactly when validated answers pass the gate. */
  function Respond(validated: Option<(int, seq<string>)>, req: Request, knowledge: string,
                   generate: Prompt -> Option<string>): (x: Exchange)
    ensures x.response == MissingData <==> validated.None?
    ensures |x.calls| <= 1
    ensures |x.calls| == 1 <==> validated.Some? && !IsInputGibberish(validated.value.1)
    ensures x.response == Rebuffed <==> validated.Some? && IsInputGibberish(validated.value.1)
    ensures validated.Some? && !IsInputGibberish(validated.value.1) ==>
              var p := BuildPrompt(req, validated.value.0, validated.value.1, knowledge);
              x == Exchange(if generate(p).Some? then Generated(generate(p).value) else GenerationFailed, [p])
  {
    match validated
    case None => Exchange(MissingData, [])
    case Some((score, answers)) =>
      if IsInputGibberish(answers) then Exchange(Rebuffed, [])
      else
        var prompt := BuildPrompt(req, score, answers, knowledge);
        match generate(prompt)
        case Some(text) => Exchange(Generated(text), [prompt])
        case None => Exchange(GenerationFailed, [prompt])
  }

  /** The handler as written. */
  function Handle(req: Request, loaded: Option<string>, generate: Prompt -> Option<string>): (x: Exchange)
    ensures !ScoreIsTruthy(req.score) || req.answers.None? ==> x == Exchange(MissingData, [])
    ensures ScoreIsTruthy(req.score) && req.answers.Some? && IsInputGibberish(req.answers.value) ==>
              x == Exchange(Rebuffed, [])
    ensures ScoreIsTruthy(req.score) && req.answers.Some? && !IsInputGibberish(req.answers.value) ==>
              && |x.calls| == 1
              && x.calls[0].score == req.score.value
              && x.calls[0].tier == TierOf(req.score.value)
              && (loaded.Some? ==> x.calls[0].knowledge == loaded.value)
              && (loaded.None? ==> x.calls[0].knowledge == KnowledgePlaceholder)
              && x.calls[0].answers == AnswerSlots(req.answers.value)
              && x.calls[0].userName == ResolveUserName(req.userName)
              && x.calls[0].segment == SegmentOf(req.userSegment)
              && x.calls[0].brandName == ResolveBrandName(req.brandName, x.calls[0].segment)
              && x.response == (match generate(x.calls[0])
                                case Some(text) => Generated(text)
                                case None => GenerationFailed)
  {
    Respond(Validate(req), req, KnowledgeText(loaded), generate)
  }

  /** The generator is called exactly when the request is valid and its
      answers pass the gate, and then exactly once. */
  lemma GeneratorCalledOnlyWhenAccepted(req: Request, loaded: Option<string>, generate: Prompt -> Option<string>)
    ensures |Handle(req, loaded, generate).calls| <= 1
    ensures |Handle(req, loaded, generate).calls| == 1 <==>
              ScoreIsTruthy(req.score) && req.answers.Some? && !IsInputGibberish(req.answers.value)
  {
  }

  /** A refused or rebuffed request never reaches the generator: its
      outcome is the same whatever the generator would have done. */
  lemma RefusalIgnoresGenerator(req: Request, loaded: Option<string>, g1: Prompt -> Option<string>, g2: Prompt -> Option<string>)
    requires !ScoreIsTruthy(req.score) || req.answers.None? || IsInputGibberish(req.answers.value)
    ensures Handle(req, loaded, g1) == Handle(req, loaded, g2)
    ensures Handle(req, loaded, g1).calls == []
  {
  }

  /** The prompt depends on the request and the knowledge text only: two
      generators are handed identical prompts. */
  lemma PromptIndependentOfGenerator(req: Request, loaded: Option<string>, g1: Prompt -> Option<string>, g2: Prompt -> Option<string>)
    ensures Handle(req, loaded, g1).calls == Handle(req, loaded, g2).calls
  {
  }

  /** A missing score, a score of 0 or missing answers is a 400 and calls
      nothing, even though 0 lies on the first line of the printed scale. */
  lemma ZeroScoreIsBadRequest(req: Request, loaded: Option<string>, generate: Prompt -> Option<string>)
    requires req.score == Some(0)
    ensures Handle(req, loaded, generate) == Exchange(MissingData, [])
    ensures OnLine(0, InterpretationScale[0])
  {
  }

  /** Fewer than two answers are rebuffed without a generator call. */
  lemma FewAnswersNeverGenerate(req: Request, loaded: Option<string>, generate: Prompt -> Option<string>)
    requires ScoreIsTruthy(req.score) && req.answers.Some? && |req.answers.value| < 2
    ensures Handle(req, loaded, generate) == Exchange(Rebuffed, [])
  {
    FewAnswersRejected(req.answers.value);
  }

  /** The answer count is never checked: three substantial answers are
      accepted, and the missing fourth reaches the prompt as "undefined". */
  lemma MissingAnswerPrintsUndefined(req: Request, loaded: Option<string>, generate: Prompt -> Option<string>)
    requires ScoreIsTruthy(req.score) && req.answers.Some? && |req.answers.value| == 3
    requires forall i :: 0 <= i < 3 ==> Substantial(Normalize(req.answers.value[i]))
    ensures |Handle(req, loaded, generate).calls| == 1
    ensures Handle(req, loaded, generate).calls[0].answers == req.answers.value + [Undefined]
  {
    SubstantialAnswersAccepted(req.answers.value);
    assert seq(1, _ => Undefined) == [Undefined];
  }

  /** The name, brand and segment framing in the prompt depend on the
      personalization fields only, never on the score or the answers. */
  lemma PersonalizationIgnoresScore(r1: Request, r2: Request, score1: int, score2: int,
                                    answers1: seq<string>, answers2: seq<string>, knowledge: string)
    requires r1.userName == r2.userName && r1.brandName == r2.brandName && r1.userSegment == r2.userSegment
    ensures var p1 := BuildPrompt(r1, score1, answers1, knowledge);
            var p2 := BuildPrompt(r2, score2, answers2, knowledge);
            p1.userName == p2.userName && p1.brandName == p2.brandName && p1.segment == p2.segment
            && SegmentContext(p1.segment) == SegmentContext(p2.segment)
            && SegmentClause(p1.segment) == SegmentClause(p2.segment)
  {
  }

  /** Without a brand name the placeholder follows the segment:
      "personal" gets the personal-brand default, anything else the
      company default. */
  lemma BrandDefaultFollowsSegment(req: Request, score: int, answers: seq<string>, knowledge: string)
    requires req.brandName.None?
    ensures var p := BuildPrompt(req, score, answers, knowledge);
            p.brandName == (if req.userSegment == Some("personal") then DefaultPersonalBrand else DefaultCompanyBrand)
            && (p.segment == PersonalBrand <==> req.userSegment == Some("personal"))
  {
  }

  /** Corrected validation: only an absent score or absent answers is
      refused, so every score the scale prints is accepted. */
  function ValidateIntended(req: Request): (v: Option<(int, seq<string>)>)
    ensures v.Some? <==> req.score.Some? && req.answers.Some?
    ensures v.Some? ==> v.value == (req.score.value, req.answers.value)
    ensures v != Validate(req) <==> req.score == Some(0) && req.answers.Some?
    ensures Validate(req).Some? ==> v == Validate(req)
  {
    if req.score.None? || req.answers.None? then None
    else Some((req.score.value, req.answers.value))
  }

  /** The handler with the corrected validation. */
  function HandleIntended(req: Request, loaded: Option<string>, generate: Prompt -> Option<string>): (x: Exchange)
    ensures req.score.Some? && req.answers.Some? ==> x.response != MissingData
    ensures req.score.None? || req.answers.None? ==> x == Exchange(MissingData, [])
    ensures req.score != Some(0) ==> x == Handle(req, loaded, generate)
    ensures req.score == Some(0) && req.answers.Some? && IsInputGibberish(req.answers.value) ==>
              x == Exchange(Rebuffed, [])
    ensures req.score == Some(0) && req.answers.Some? && !IsInputGibberish(req.answers.value) ==>
              var p := BuildPrompt(req, 0, req.answers.value, KnowledgeText(loaded));
              && p.score == 0 && p.tier == Foundations
              && x == Exchange(if generate(p).Some? then Generated(generate(p).value) else GenerationFailed, [p])
  {
    Respond(ValidateIntended(req), req, KnowledgeText(loaded), generate)
  }

  /** Under the corrected validation a score of 0 with substantial answers
      reaches the generator, with the bottom band selected. */
  lemma ZeroScoreAcceptedWhenIntended(req: Request, loaded: Option<string>, generate: Prompt -> Option<string>)
    requires req.score == Some(0) && req.answers.Some? && |req.answers.value| >= 3
    requires forall i :: 0 <= i < |req.answers.value| ==> Substantial(Normalize(req.answers.value[i]))
    ensures |HandleIntended(req, loaded, generate).calls| == 1
    ensures HandleIntended(req, loaded, generate).calls[0].tier == Foundations
  {
    SubstantialAnswersAccepted(req.answers.value);
  }
}

=== FILE: classifier.dfy ===
/** The answer-quality gate `isInputGibberish`: every answer is normalised
    and classified as suspicious or contributing, the counts are tallied,
    and the whole set is rejected when it is too short, too suspicious or
    carries too little weight. Weights are counted in half-units, so the
    0.5 steps of `isInputGibberish` stay integral. */
module Classifier {

  import opened Text
  import opened Letters
  import opened Repetition

  /** Answers shorter than this are compared with the phrase list. */
  const PhraseCheckLimit: nat := 15
  /** Length from which a contributing answer weighs a full unit. */
  const FullWeightLength: nat := 20
  /** Length from which a contributing answer weighs half a unit. */
  const HalfWeightLength: nat := 10
  /** Rejection thresholds: total length, suspicious answers, and weight in
      half-units (two full answers). */
  const MinTotalLength: nat := 50
  const MaxSuspicious: nat := 2
  const MinValidHalves: nat := 4

  /** Filler answers (Polish "don't know", "hard to say", keyboard mashing, …). */
  const LowQualityPhrases: seq<string> :=
    ["nie wiem", "trudno powiedzieć", "test", "asdf", "brak", "xd", "ok", "asd", "qwe", "zxc", "brak pomysłu"]

  /** `s` is a listed phrase, alone or followed by one period. */
  predicate IsLowQualityPhrase(s: string) {
    s in LowQualityPhrases || (s != [] && s[|s| - 1] == '.' && s[..|s| - 1] in LowQualityPhrases)
  }

  /** The phrase test is `isInputGibberish`'s `some(word => s === word || s === word + '.')`. */
  lemma PhraseTestMeaning(s: string)
    ensures IsLowQualityPhrase(s) <==>
              exists w :: w in LowQualityPhrases && (s == w || s == w + ".")
  {
    if s != [] && s[|s| - 1] == '.' && s[..|s| - 1] in LowQualityPhrases {
      assert s == s[..|s| - 1] + ".";
    }
  }

  /** The test `/^\d+$/`: non-empty, ASCII digits only. */
  predicate IsAllDigits(s: string) {
    |s| > 0 && forall k :: 0 <= k < |s| ==> '0' <= s[k] <= '9'
  }

  /** The letter-composition test: at least one consonant, vowels under 15%
      of the letters (`vowels / (vowels + consonants) < 0.15`, cross-multiplied),
      and a run of consonants. */
  predicate LooksRandom(s: string) {
    var v := CountVowels(s);
    var c := CountConsonants(s);
    c > 0 && 100 * v < 15 * (v + c) && HasConsonantRun(s)
  }

  /** Which check flagged a suspicious answer. */
  datatype Flag = Empty | LowQualityPhrase | Repetitive | DigitsOnly | ConsonantCluster

  /** A weight of 0, 0.5 or 1, counted in half-units. */
  type HalfUnits = h: nat | h <= 2

  /** The fate of one answer: flagged, or contributing a weight. */
  datatype Outcome = Suspicious(flag: Flag) | Contributing(halves: HalfUnits)

  /** Weight of a contributing answer of the given length. */
  function Weight(length: nat): HalfUnits {
    if length >= FullWeightLength then 2
    else if length >= HalfWeightLength then 1
    else 0
  }

  /** First-match-wins classification of a normalised answer. */
  function ClassifyNormalized(s: string): Outcome {
    if |s| == 0 then Suspicious(Empty)
    else if |s| < PhraseCheckLimit && IsLowQualityPhrase(s) then Suspicious(LowQualityPhrase)
    else if IsBlockRepetition(s) then Suspicious(Repetitive)
    else if IsAllDigits(s) then Suspicious(DigitsOnly)
    else if LooksRandom(s) then Suspicious(ConsonantCluster)
    else Contributing(Weight(|s|))
  }

  /** What each outcome of the classification means, stated with the
      reference meanings of the regular expressions: an answer is flagged by
      exactly one check, and contributes only when it passes all of them. */
  lemma ClassificationMeaning(s: string)
    ensures ClassifyNormalized(s) == Suspicious(Empty) <==> s == []
    ensures ClassifyNormalized(s) == Suspicious(LowQualityPhrase) ==>
              0 < |s| < PhraseCheckLimit && IsLowQualityPhrase(s)
    ensures |s| >= PhraseCheckLimit ==> ClassifyNormalized(s) != Suspicious(LowQualityPhrase)
    ensures ClassifyNormalized(s) == Suspicious(Repetitive) ==> IsRepeatedBlock(s)
    ensures ClassifyNormalized(s) == Suspicious(DigitsOnly) ==> IsAllDigits(s) && !IsRepeatedBlock(s)
    ensures ClassifyNormalized(s) == Suspicious(ConsonantCluster) ==>
              && HasConsonantWindow(s) && CountConsonants(s) > 0
              && 100 * CountVowels(s) < 15 * (CountVowels(s) + CountConsonants(s))
              && !IsRepeatedBlock(s) && !IsAllDigits(s)
    ensures ClassifyNormalized(s).Contributing? <==>
              && s != []
              && !(|s| < PhraseCheckLimit && IsLowQualityPhrase(s))
              && !IsRepeatedBlock(s) && !IsAllDigits(s)
              && !(CountConsonants(s) > 0
                   && 100 * CountVowels(s) < 15 * (CountVowels(s) + CountConsonants(s))
                   && HasConsonantWindow(s))
    ensures ClassifyNormalized(s).Contributing? ==>
              && (ClassifyNormalized(s).halves == 2 <==> |s| >= FullWeightLength)
              && (ClassifyNormalized(s).halves == 0 <==> |s| < HalfWeightLength)
  {
    RepetitionTestCorrect(s);
    ConsonantRunTestCorrect(s);
  }

  /** One answer as the loop sees it: its normalised length and its outcome. */
  datatype Assessed = Assessed(length: nat, outcome: Outcome)

  /** Normalises and classifies one raw answer. */
  function Assess(answer: string): Assessed {
    var s := Normalize(answer);
    Assessed(|s|, ClassifyNormalized(s))
  }

  /** Every answer of the list, assessed in order. */
  function AssessAll(answers: seq<string>): (xs: seq<Assessed>)
    ensures |xs| == |answers|
  {
    if answers == [] then []
    else AssessAll(answers[..|answers| - 1]) + [Assess(answers[|answers| - 1])]
  }

  /** The three counters of `isInputGibberish`'s loop. */
  datatype Tally = Tally(totalLength: nat, suspicious: nat, halves: nat)

  /** One loop iteration: the normalised length is added to the total for
      every answer, whether or not a check flags it (a blank answer has
      length zero). */
  function Step(t: Tally, a: Assessed): Tally {
    match a.outcome
    case Suspicious(_) => Tally(t.totalLength + a.length, t.suspicious + 1, t.halves)
    case Contributing(h) => Tally(t.totalLength + a.length, t.suspicious, t.halves + h)
  }

  /** Sum of the normalised lengths of all answers, flagged or not. */
  function SumLengths(xs: seq<Assessed>): nat {
    if xs == [] then 0 else SumLengths(xs[..|xs| - 1]) + xs[|xs| - 1].length
  }

  /** The counters after the loop has seen every answer, in order. */
  function TallyOf(xs: seq<Assessed>): (t: Tally)
    ensures t.totalLength == SumLengths(xs)
    ensures t.suspicious <= |xs|
    ensures t.halves <= 2 * (|xs| - t.suspicious)
  {
    if xs == [] then Tally(0, 0, 0)
    else Step(TallyOf(xs[..|xs| - 1]), xs[|xs| - 1])
  }

  /** The rejection rule applied to the final counters. */
  predicate Rejects(t: Tally) {
    t.totalLength < MinTotalLength || t.suspicious > MaxSuspicious || t.halves < MinValidHalves
  }

  /** `isInputGibberish(answers)`. */
  predicate IsInputGibberish(answers: seq<string>) {
    Rejects(TallyOf(AssessAll(answers)))
  }

  /** Sum of the normalised lengths of the raw answers. */
  function TotalTrimmedLength(answers: seq<string>): nat {
    if answers == [] then 0
    else TotalTrimmedLength(answers[..|answers| - 1]) + |Normalize(answers[|answers| - 1])|
  }

  /** The total length counts every answer, including flagged ones. */
  lemma {:induction false} TotalLengthCountsEveryAnswer(answers: seq<string>)
    ensures TallyOf(AssessAll(answers)).totalLength == TotalTrimmedLength(answers)
  {
    if answers != [] {
      var init := answers[..|answers| - 1];
      TotalLengthCountsEveryAnswer(init);
      assert AssessAll(answers)[..|answers| - 1] == AssessAll(init);
    }
  }

  /** Indices of the answers some check flags. */
  ghost function SuspiciousIndices(xs: seq<Assessed>): set<int> {
    set i | 0 <= i < |xs| && xs[i].outcome.Suspicious?
  }

  /** The suspicious counter counts exactly the flagged answers. */
  lemma {:induction false} SuspiciousCountExact(xs: seq<Assessed>)
    ensures TallyOf(xs).suspicious == |SuspiciousIndices(xs)|
  {
    if xs != [] {
      var init := xs[..|xs| - 1];
      var last := |xs| - 1;
      SuspiciousCountExact(init);
      if xs[last].outcome.Suspicious? {
        assert SuspiciousIndices(xs) == SuspiciousIndices(init) + {last};
      } else {
        assert SuspiciousIndices(xs) == SuspiciousIndices(init);
      }
    }
  }

  /** An answer that is blank after trimming counts as suspicious and adds
      nothing to the total length. */
  lemma BlankAnswerStep(t: Tally, answer: string)
    requires AllWhitespace(answer)
    ensures Step(t, Assess(answer)) == Tally(t.totalLength, t.suspicious + 1, t.halves)
  {
    NormalizeMeaning(answer);
  }

  /** A flagged answer still adds its normalised length to the total. */
  lemma SuspiciousAnswerStillCounted(t: Tally, answer: string)
    requires Assess(answer).outcome.Suspicious?
    ensures Step(t, Assess(answer)) == Tally(t.totalLength + |Normalize(answer)|, t.suspicious + 1, t.halves)
  {
  }

  /** The phrase list is only consulted for answers under fifteen
      characters: "trudno powiedzieć", listed but seventeen characters long,
      can never be flagged by it. */
  lemma PhraseCheckLengthGuarded(answer: string)
    requires |Normalize(answer)| >= PhraseCheckLimit
    ensures Assess(answer).outcome != Suspicious(LowQualityPhrase)
  {
  }

  /** "trudno powiedzieć" is listed, but at seventeen characters it is too
      long for the guarded phrase check ever to compare it: no answer that
      normalises to it, with or without a final period, is flagged by the
      phrase list. */
  lemma ListedPhraseUnreachable(answer: string)
    requires Normalize(answer) == "trudno powiedzieć" || Normalize(answer) == "trudno powiedzieć."
    ensures "trudno powiedzieć" in LowQualityPhrases
    ensures |"trudno powiedzieć"| >= PhraseCheckLimit
    ensures Assess(answer).outcome != Suspicious(LowQualityPhrase)
  {
  }

  /** Fewer than two answers can never reach the weight of two. */
  lemma FewAnswersRejected(answers: seq<string>)
    requires |answers| < 2
    ensures IsInputGibberish(answers)
  {
  }

  /** Less than fifty normalised characters in all is always rejected. */
  lemma ShortInputRejected(answers: seq<string>)
    requires TotalTrimmedLength(answers) < MinTotalLength
    ensures IsInputGibberish(answers)
  {
    TotalLengthCountsEveryAnswer(answers);
  }

  /** More than two flagged answers is always rejected, whatever the length. */
  lemma ManySuspiciousRejected(answers: seq<string>)
    requires |SuspiciousIndices(AssessAll(answers))| > MaxSuspicious
    ensures IsInputGibberish(answers)
  {
    SuspiciousCountExact(AssessAll(answers));
  }

  /** Answers of at most `m` raw characters normalise to at most `m` each. */
  lemma {:induction false} TotalTrimmedLengthAtMost(answers: seq<string>, m: nat)
    requires forall i :: 0 <= i < |answers| ==> |answers[i]| <= m
    ensures TotalTrimmedLength(answers) <= m * |answers|
  {
    if answers != [] {
      var init := answers[..|answers| - 1];
      assert forall i :: 0 <= i < |init| ==> init[i] == answers[i];
      TotalTrimmedLengthAtMost(init, m);
      var last := answers[|answers| - 1];
      calc {
        TotalTrimmedLength(answers);
        TotalTrimmedLength(init) + |Normalize(last)|;
      <=
        m * |init| + m;
      == { MultiplySuccessor(m, |init|); }
        m * |answers|;
      }
    }
  }

  /** `m` copies of one more item is `m` more. */
  lemma MultiplySuccessor(m: nat, n: nat)
    ensures m * n + m == m * (n + 1)
  {
  }

  /** Up to four answers of at most twelve characters each are rejected:
      together they cannot reach fifty characters. */
  lemma TerseAnswersRejected(answers: seq<string>)
    requires |answers| <= 4
    requires forall i :: 0 <= i < |answers| ==> |answers[i]| <= 12
    ensures IsInputGibberish(answers)
  {
    TotalTrimmedLengthAtMost(answers, 12);
    ShortInputRejected(answers);
  }

  /** Blank answers, however many, are rejected. */
  lemma BlankAnswersRejected(answers: seq<string>)
    requires forall i :: 0 <= i < |answers| ==> AllWhitespace(answers[i])
    ensures IsInputGibberish(answers)
  {
    forall i | 0 <= i < |answers|
      ensures |answers[i]| <= 0 || Normalize(answers[i]) == []
    {
      NormalizeMeaning(answers[i]);
    }
    BlankTotalZero(answers);
    ShortInputRejected(answers);
  }

  lemma {:induction false} BlankTotalZero(answers: seq<string>)
    requires forall i :: 0 <= i < |answers| ==> AllWhitespace(answers[i])
    ensures TotalTrimmedLength(answers) == 0
  {
    if answers != [] {
      var init := answers[..|answers| - 1];
      assert forall i :: 0 <= i < |init| ==> init[i] == answers[i];
      BlankTotalZero(init);
      NormalizeMeaning(answers[|answers| - 1]);
    }
  }

  /** Four one-letter answers are rejected. */
  lemma OneLetterAnswersRejected()
    ensures IsInputGibberish(["a", "b", "c", "d"])
  {
    TerseAnswersRejected(["a", "b", "c", "d"]);
  }

  /** A normalised answer that passes every check with full weight. */
  ghost predicate Substantial(s: string) {
    && |s| >= FullWeightLength
    && !IsRepeatedBlock(s) && !IsAllDigits(s)
    && 100 * CountVowels(s) >= 15 * (CountVowels(s) + CountConsonants(s))
  }

  /** Substantial answers contribute with full weight, none is flagged. */
  lemma {:induction false} SubstantialTally(answers: seq<string>)
    requires forall i :: 0 <= i < |answers| ==> Substantial(Normalize(answers[i]))
    ensures TallyOf(AssessAll(answers)).suspicious == 0
    ensures TallyOf(AssessAll(answers)).halves == 2 * |answers|
    ensures TallyOf(AssessAll(answers)).totalLength >= FullWeightLength * |answers|
  {
    if answers != [] {
      var init := answers[..|answers| - 1];
      var last := answers[|answers| - 1];
      assert forall i :: 0 <= i < |init| ==> init[i] == answers[i];
      SubstantialTally(init);
      assert AssessAll(answers)[..|answers| - 1] == AssessAll(init);
      ClassificationMeaning(Normalize(last));
      assert Substantial(Normalize(last));
    }
  }

  /** Three or more substantial answers are always accepted. */
  lemma SubstantialAnswersAccepted(answers: seq<string>)
    requires |answers| >= 3
    requires forall i :: 0 <= i < |answers| ==> Substantial(Normalize(answers[i]))
    ensures !IsInputGibberish(answers)
  {
    SubstantialTally(answers);
  }

  /** The counters the loop reports alongside its verdict. */
  datatype QualityVerdict = QualityVerdict(rejected: bool, totalLength: nat, suspicious: nat, halves: nat)

  /** Tallying one more answer is one more loop step. */
  lemma TallyExtend(answers: seq<string>, i: nat)
    requires i < |answers|
    ensures TallyOf(AssessAll(answers[..i + 1])) == Step(TallyOf(AssessAll(answers[..i])), Assess(answers[i]))
  {
    assert answers[..i + 1][..i] == answers[..i];
    var prefix := AssessAll(answers[..i]);
    assert (prefix + [Assess(answers[i])])[..i] == prefix;
  }

  /** The body of `isInputGibberish`'s loop for one normalised answer: the checks
      in the order `isInputGibberish` runs them, each `continue` becoming an early return. */
  method CheckAnswer(s: string) returns (flagged: bool, halves: HalfUnits)
    ensures flagged <==>
              || s == []
              || (|s| < PhraseCheckLimit && IsLowQualityPhrase(s))
              || IsRepeatedBlock(s)
              || IsAllDigits(s)
              || (CountConsonants(s) > 0
                  && 100 * CountVowels(s) < 15 * (CountVowels(s) + CountConsonants(s))
                  && HasConsonantWindow(s))
    ensures !flagged ==> (halves == 2 <==> |s| >= FullWeightLength) && (halves == 0 <==> |s| < HalfWeightLength)
    ensures flagged <==> ClassifyNormalized(s).Suspicious?
    ensures !flagged ==> ClassifyNormalized(s) == Contributing(halves)
  {
    ClassificationMeaning(s);
    halves := 0;
    flagged := true;
    if |s| == 0 {
      return;
    }
    if |s| < PhraseCheckLimit && IsLowQualityPhrase(s) {
      return;
    }
    if IsBlockRepetition(s) {
      return;
    }
    if IsAllDigits(s) {
      return;
    }
    var vowels := CountVowels(s);
    var consonants := CountConsonants(s);
    if consonants > 0 && 100 * vowels < 15 * (vowels + consonants) && HasConsonantRun(s) {
      return;
    }
    flagged := false;
    if |s| >= FullWeightLength {
      halves := 2;
    } else if |s| >= HalfWeightLength {
      halves := 1;
    }
  }

  /** One pass of `isInputGibberish`'s loop body: the answer's trimmed length is
      added before the checks run; a flagged answer bumps the suspicious
      counter, any other adds its weight. */
  method TallyAnswer(t: Tally, answer: string) returns (u: Tally)
    ensures u.totalLength == t.totalLength + |Normalize(answer)|
    ensures u == Step(t, Assess(answer))
  {
    var s := Normalize(answer);
    var totalLength := t.totalLength + |s|;
    var flagged, halves := CheckAnswer(s);
    if flagged {
      u := Tally(totalLength, t.suspicious + 1, t.halves);
    } else {
      u := Tally(totalLength, t.suspicious, t.halves + halves);
    }
  }

  /** `isInputGibberish`'s loop over all answers, then its three rejection rules. */
  method AssessQuality(answers: seq<string>) returns (v: QualityVerdict)
    ensures v.rejected == IsInputGibberish(answers)
    ensures v.totalLength == TotalTrimmedLength(answers)
    ensures v.suspicious == |SuspiciousIndices(AssessAll(answers))|
    ensures v.halves <= 2 * (|answers| - v.suspicious)
    ensures v.rejected <==>
              v.totalLength < MinTotalLength || v.suspicious > MaxSuspicious || v.halves < MinValidHalves
  {
    var t := Tally(0, 0, 0);
    for i := 0 to |answers|
      invariant t == TallyOf(AssessAll(answers[..i]))
    {
      t := TallyAnswer(t, answers[i]);
      TallyExtend(answers, i);
    }
    assert answers[..|answers|] == answers;
    SuspiciousCountExact(AssessAll(answers));
    TotalLengthCountsEveryAnswer(answers);
    v := QualityVerdict(
      t.totalLength < MinTotalLength || t.suspicious > MaxSuspicious || t.halves < MinValidHalves,
      t.totalLength, t.suspicious, t.halves);
  }
}

=== FILE: letters.dfy ===
/** The letter-composition heuristic of the answer classifier: the Polish
    vowel and consonant classes, their counts, and the test for a run of
    consecutive consonants (`/[bcćdfghjklłmnńprsśtwzźż]{5,}/`). */
module Letters {

  /** Length of the consonant run that marks an answer as random typing. */
  const MinConsonantRun: nat := 5

  /** The class `[aąeęioóuy]`. */
  predicate IsVowel(c: char) {
    c in {'a', 'ą', 'e', 'ę', 'i', 'o', 'ó', 'u', 'y'}
  }

  /** The class `[bcćdfghjklłmnńprsśtwzźż]`. */
  predicate IsConsonant(c: char) {
    c in {'b', 'c', 'ć', 'd', 'f', 'g', 'h', 'j', 'k', 'l', 'ł', 'm', 'n', 'ń', 'p', 'r', 's', 'ś', 't', 'w', 'z', 'ź', 'ż'}
  }

  /** No character is both a vowel and a consonant. */
  lemma ClassesDisjoint(c: char)
    ensures !(IsVowel(c) && IsConsonant(c))
  {
  }

  /** q, v, x and the decimal digits belong to neither class, so they
      count toward neither side of the vowel ratio. */
  lemma OutsideBothClasses(c: char)
    ensures c in "qvx0123456789" ==> !IsVowel(c) && !IsConsonant(c)
  {
  }

  /** Number of matches of the vowel class, as `match(/.../g).length`. */
  function CountVowels(s: string): (n: nat)
    ensures n <= |s|
  {
    if s == [] then 0
    else CountVowels(s[..|s| - 1]) + (if IsVowel(s[|s| - 1]) then 1 else 0)
  }

  /** Number of matches of the consonant class. */
  function CountConsonants(s: string): (n: nat)
    ensures n <= |s|
  {
    if s == [] then 0
    else CountConsonants(s[..|s| - 1]) + (if IsConsonant(s[|s| - 1]) then 1 else 0)
  }

  /** Every character is counted at most once: vowels and consonants
      together never outnumber the characters. */
  lemma {:induction false} CountsBounded(s: string)
    ensures CountVowels(s) + CountConsonants(s) <= |s|
  {
    if s != [] {
      CountsBounded(s[..|s| - 1]);
      ClassesDisjoint(s[|s| - 1]);
    }
  }

  /** Reference meaning of the run test: some window of `MinConsonantRun`
      adjacent characters holds consonants only. */
  ghost predicate HasConsonantWindow(s: string) {
    exists i :: WindowAt(s, i)
  }

  /** The `MinConsonantRun` characters from index `i` are all consonants. */
  ghost predicate WindowAt(s: string, i: int) {
    0 <= i <= |s| - MinConsonantRun && AllConsonants(s, i, i + MinConsonantRun)
  }

  ghost predicate AllConsonants(s: string, lo: int, hi: int)
    requires 0 <= lo <= hi <= |s|
  {
    forall k :: lo <= k < hi ==> IsConsonant(s[k])
  }

  /** Left-to-right scan of `s`, `run` being the number of consonants met
      immediately before it: succeeds once `MinConsonantRun` consonants in a
      row have been seen. */
  function ScanRun(s: string, run: nat): bool
  {
    run >= MinConsonantRun
    || (s != [] && ScanRun(s[1..], if IsConsonant(s[0]) then run + 1 else 0))
  }

  /** The regular-expression test `/[consonants]{5,}/.test(s)`. */
  function HasConsonantRun(s: string): bool {
    ScanRun(s, 0)
  }

  /** The scan finds a run exactly when some window holds consonants only. */
  lemma ConsonantRunTestCorrect(s: string)
    ensures HasConsonantRun(s) <==> HasConsonantWindow(s)
  {
    ScanRunMeansWindow(s, 0);
    LeadingRunIsWindow(s);
  }

  /** Number of consonants at the start of `s`. */
  function LeadingConsonants(s: string): (n: nat)
    ensures n <= |s| && AllConsonants(s, 0, n)
    ensures n < |s| ==> !IsConsonant(s[n])
  {
    if s != [] && IsConsonant(s[0]) then 1 + LeadingConsonants(s[1..]) else 0
  }

  /** A window either starts at the first character, which happens exactly
      when `s` opens with a full run, or lies in the tail. */
  lemma WindowSplit(s: string)
    requires s != []
    ensures HasConsonantWindow(s) <==>
              LeadingConsonants(s) >= MinConsonantRun || HasConsonantWindow(s[1..])
  {
    var t := s[1..];
    if HasConsonantWindow(s) {
      var i :| WindowAt(s, i);
      if i == 0 {
        LeadingAtLeast(s, MinConsonantRun);
      } else {
        assert forall k :: i - 1 <= k < i - 1 + MinConsonantRun ==> t[k] == s[k + 1];
        assert WindowAt(t, i - 1);
      }
    }
    if LeadingConsonants(s) >= MinConsonantRun {
      assert WindowAt(s, 0);
    }
    if HasConsonantWindow(t) {
      var i :| WindowAt(t, i);
      assert forall k :: i + 1 <= k < i + 1 + MinConsonantRun ==> s[k] == t[k - 1];
      assert WindowAt(s, i + 1);
    }
  }

  /** A string that opens with a full run has a window at index 0. */
  lemma LeadingRunIsWindow(s: string)
    ensures LeadingConsonants(s) >= MinConsonantRun ==> HasConsonantWindow(s)
  {
    if LeadingConsonants(s) >= MinConsonantRun {
      assert WindowAt(s, 0);
    }
  }

  /** A prefix of `n` consonants means at least `n` leading consonants. */
  lemma {:induction false} LeadingAtLeast(s: string, n: nat)
    requires n <= |s| && AllConsonants(s, 0, n)
    ensures LeadingConsonants(s) >= n
  {
    if n > 0 {
      assert AllConsonants(s[1..], 0, n - 1);
      LeadingAtLeast(s[1..], n - 1);
    }
  }

  /** What the scan computes, for any carried-in run length. */
  lemma {:induction false} ScanRunMeansWindow(s: string, run: nat)
    ensures ScanRun(s, run) <==>
              run + LeadingConsonants(s) >= MinConsonantRun || HasConsonantWindow(s)
    decreases |s|
  {
    if s == [] {
      assert forall i :: !WindowAt(s, i);
    } else {
      ScanRunMeansWindow(s[1..], if IsConsonant(s[0]) then run + 1 else 0);
      WindowSplit(s);
      if LeadingConsonants(s[1..]) >= MinConsonantRun {
        WindowSplit(s[1..]);
        if IsConsonant(s[1]) {
        }
        assert WindowAt(s[1..], 0);
      }
    }
  }
}

=== FILE: optional.dfy ===
/** An optional value: a request field that may be absent. */
module Optional {

  datatype Option<+T> = None | Some(value: T)
}

=== FILE: personalization.dfy ===
/** Personalization of the prompt: the defaulted user and brand names and
    the segment framing, which depends only on whether the segment field
    is exactly "personal". */
module Personalization {

  import opened Optional
  import opened Text

  const DefaultUserName: string := "Użytkownik"
  const DefaultPersonalBrand: string := "Twoja marka osobista"
  const DefaultCompanyBrand: string := "Twoja firma"

  /** The two framings of the analysis: a personal brand or a company brand. */
  datatype Segment = PersonalBrand | CompanyBrand

  /** `userSegment === 'personal'`: any other value, or none, frames the
      analysis as a company brand. */
  function SegmentOf(userSegment: Option<string>): Segment {
    if userSegment == Some("personal") then PersonalBrand else CompanyBrand
  }

  /** The segment label interpolated into the prompt. */
  function SegmentContext(segment: Segment): string {
    match segment
    case PersonalBrand => "Marka Osobista (freelancer, ekspert, twórca, konsultant)"
    case CompanyBrand => "Marka Firmy (zespół, organizacja, biznes B2B/B2C)"
  }

  /** The segment instruction interpolated into the prompt's rules. */
  function SegmentClause(segment: Segment): string {
    match segment
    case PersonalBrand => "Mów o tej osobie jako ekspercie/twórcy budującym osobistą markę, unikaj odniesień do zespołu czy pracowników. Skup się na osobistym wpływie, autentyczności i budowaniu autorytetu."
    case CompanyBrand => "Analizuj z perspektywy organizacji, zespołu i struktury firmowej. Odnosi się do pracowników, kultury organizacyjnej i systemów biznesowych."
  }

  /** Default for a missing brand name, by segment. */
  function DefaultBrand(segment: Segment): string {
    match segment
    case PersonalBrand => DefaultPersonalBrand
    case CompanyBrand => DefaultCompanyBrand
  }

  /** A supplied value if it is not blank once trimmed, trimmed; the default
      otherwise. An empty or absent field takes the default too. */
  function TrimmedOr(supplied: Option<string>, default: string): (r: string)
    requires default != [] && Trim(default) == default
    ensures r != [] && Trim(r) == r
    ensures supplied.Some? && !AllWhitespace(supplied.value) ==> r == Trim(supplied.value)
    ensures (supplied.None? || AllWhitespace(supplied.value)) ==> r == default
  {
    match supplied
    case None => default
    case Some(v) =>
      TrimMeaning(v);
      TrimIdempotent(v);
      if |Trim(v)| > 0 then Trim(v) else default
  }

  /** `validUserName`: never empty, never padded with whitespace. */
  function ResolveUserName(userName: Option<string>): (r: string)
    ensures r != [] && Trim(r) == r
    ensures userName.Some? && !AllWhitespace(userName.value) ==> r == Trim(userName.value)
    ensures (userName.None? || AllWhitespace(userName.value)) ==> r == DefaultUserName
  {
    DefaultsAreTrimmed();
    TrimmedOr(userName, DefaultUserName)
  }

  /** `validBrandName`: the supplied brand, or the segment's default. */
  function ResolveBrandName(brandName: Option<string>, segment: Segment): (r: string)
    ensures r != [] && Trim(r) == r
    ensures brandName.Some? && !AllWhitespace(brandName.value) ==> r == Trim(brandName.value)
    ensures (brandName.None? || AllWhitespace(brandName.value)) ==>
              r == (if segment == PersonalBrand then DefaultPersonalBrand else DefaultCompanyBrand)
  {
    DefaultsAreTrimmed();
    TrimmedOr(brandName, DefaultBrand(segment))
  }

  /** The three placeholders are non-empty and carry no surrounding
      whitespace, so they pass through their own defaulting unchanged. */
  lemma DefaultsAreTrimmed()
    ensures Trim(DefaultUserName) == DefaultUserName
    ensures Trim(DefaultPersonalBrand) == DefaultPersonalBrand
    ensures Trim(DefaultCompanyBrand) == DefaultCompanyBrand
  {
    TrimUnpadded(DefaultUserName);
    TrimUnpadded(DefaultPersonalBrand);
    TrimUnpadded(DefaultCompanyBrand);
  }

  /** A non-empty string with no whitespace at either end trims to itself. */
  lemma TrimUnpadded(s: string)
    requires s != [] && !IsWhitespace(s[0]) && !IsWhitespace(s[|s| - 1])
    ensures Trim(s) == s
  {
  }

  /** Resolving an already resolved name gives it back: the defaulting is
      idempotent. */
  lemma ResolutionIdempotent(userName: Option<string>, brandName: Option<string>, segment: Segment)
    ensures ResolveUserName(Some(ResolveUserName(userName))) == ResolveUserName(userName)
    ensures ResolveBrandName(Some(ResolveBrandName(brandName, segment)), segment)
            == ResolveBrandName(brandName, segment)
  {
    var n := ResolveUserName(userName);
    var b := ResolveBrandName(brandName, segment);
    TrimMeaning(n);
    TrimMeaning(b);
  }
}

=== FILE: repetition.dfy ===
/** The degenerate-repetition test of the answer classifier, the regular
    expression `/^(.{1,3})\1{2,}$/`: the whole answer is one block of one to
    three characters written at least three times. */
module Repetition {

  import opened Text

  /** `b` written `n` times in a row. */
  function Repeat(b: string, n: nat): (r: string)
    ensures |r| == n * |b|
  {
    if n == 0 then [] else b + Repeat(b, n - 1)
  }

  /** Every character of `s` is one that `.` matches. */
  predicate NoLineTerminator(s: string) {
    forall k :: 0 <= k < |s| ==> !IsLineTerminator(s[k])
  }

  /** Every character of `s` equals the one `p` places before it. */
  predicate HasPeriod(s: string, p: nat) {
    forall k :: p <= k < |s| ==> s[k] == s[k - p]
  }

  /** `s` is at least three copies of its first `p` characters. */
  predicate RepeatsWithPeriod(s: string, p: nat)
    requires 1 <= p
  {
    |s| % p == 0 && |s| / p >= 3 && HasPeriod(s, p)
  }

  /** The executable form of the regular-expression test: one of the three
      block lengths tiles `s`, and `s` holds no line terminator. */
  predicate IsBlockRepetition(s: string) {
    && NoLineTerminator(s)
    && (RepeatsWithPeriod(s, 1) || RepeatsWithPeriod(s, 2) || RepeatsWithPeriod(s, 3))
  }

  /** Reference meaning of the regular expression: some block of one to
      three characters, none a line terminator, repeated at least three
      times, spells `s`. */
  ghost predicate IsRepeatedBlock(s: string) {
    exists b: string, n: nat :: 1 <= |b| <= 3 && NoLineTerminator(b) && n >= 3 && s == Repeat(b, n)
  }

  /** The executable test decides the regular expression exactly. */
  lemma RepetitionTestCorrect(s: string)
    ensures IsBlockRepetition(s) <==> IsRepeatedBlock(s)
  {
    if IsBlockRepetition(s) {
      var p := if RepeatsWithPeriod(s, 1) then 1 else if RepeatsWithPeriod(s, 2) then 2 else 3;
      TilingIsRepeatedBlock(s, p);
    }
    if IsRepeatedBlock(s) {
      var b: string, n: nat :| 1 <= |b| <= 3 && NoLineTerminator(b) && n >= 3 && s == Repeat(b, n);
      RepeatedBlockTiles(b, n);
    }
  }

  /** A tiling by the first `p` characters spells a repeated block. */
  lemma TilingIsRepeatedBlock(s: string, p: nat)
    requires 1 <= p <= 3 && NoLineTerminator(s) && RepeatsWithPeriod(s, p)
    ensures IsRepeatedBlock(s)
  {
    var n := |s| / p;
    assert |s| == n * p;
    var b := s[..p];
    PeriodicIsRepeat(s, b, n);
    assert NoLineTerminator(b);
    assert 1 <= |b| <= 3 && n >= 3 && s == Repeat(b, n);
  }

  /** A repeated block is tiled by its block length and holds no line
      terminator. */
  lemma RepeatedBlockTiles(b: string, n: nat)
    requires 1 <= |b| <= 3 && NoLineTerminator(b) && n >= 3
    ensures IsBlockRepetition(Repeat(b, n))
  {
    var s := Repeat(b, n);
    RepeatPeriodic(b, n);
    RepeatNoLineTerminator(b, n);
    assert |s| / |b| == n && |s| % |b| == 0;
    assert RepeatsWithPeriod(s, |b|);
  }

  /** A repetition of `b` starts with `b` and has period `|b|`. */
  lemma {:induction false} RepeatPeriodic(b: string, n: nat)
    requires |b| > 0
    ensures HasPeriod(Repeat(b, n), |b|)
    ensures n > 0 ==> Repeat(b, n)[..|b|] == b
  {
    if n > 0 {
      var r := Repeat(b, n);
      var r' := Repeat(b, n - 1);
      RepeatPeriodic(b, n - 1);
      forall k | |b| <= k < |r|
        ensures r[k] == r[k - |b|]
      {
        assert r[k] == r'[k - |b|];
        if k - |b| < |b| {
          assert r'[..|b|] == b;
        } else {
          assert r[k - |b|] == r'[k - |b| - |b|];
        }
      }
    }
  }

  /** A string of period `|b|` starting with `b` is a repetition of `b`. */
  lemma {:induction false} PeriodicIsRepeat(s: string, b: string, n: nat)
    requires |b| > 0 && |s| == n * |b| && HasPeriod(s, |b|)
    requires n > 0 ==> s[..|b|] == b
    ensures s == Repeat(b, n)
  {
    if n > 0 {
      var t := s[|b|..];
      assert |t| == (n - 1) * |b|;
      forall k | |b| <= k < |t|
        ensures t[k] == t[k - |b|]
      {
        assert t[k] == s[k + |b|];
      }
      if n - 1 > 0 {
        forall j | 0 <= j < |b|
          ensures t[j] == b[j]
        {
          assert t[j] == s[j + |b|] == s[j];
        }
      }
      PeriodicIsRepeat(t, b, n - 1);
      assert s == b + t;
    }
  }

  /** Repeating a block never introduces a line terminator. */
  lemma {:induction false} RepeatNoLineTerminator(b: string, n: nat)
    requires NoLineTerminator(b)
    ensures NoLineTerminator(Repeat(b, n))
  {
    if n > 0 {
      RepeatNoLineTerminator(b, n - 1);
    }
  }
}

=== FILE: text.dfy ===
/** The string normalisation applied to every survey answer before it is
    classified: ECMAScript `toLowerCase` followed by `trim`. */
module Text {

  /** The ECMAScript WhiteSpace and LineTerminator code points: exactly the
      characters `String.prototype.trim` removes from both ends. */
  predicate IsWhitespace(c: char) {
    || c == ' ' || c == '\t' || c == '\n' || c == '\r'
    || c == '\U{000B}' || c == '\U{000C}' || c == '\U{00A0}' || c == '\U{1680}'
    || ('\U{2000}' <= c <= '\U{200A}')
    || c == '\U{2028}' || c == '\U{2029}' || c == '\U{202F}' || c == '\U{205F}'
    || c == '\U{3000}' || c == '\U{FEFF}'
  }

  /** The code points a regular-expression `.` refuses to match. */
  predicate IsLineTerminator(c: char) {
    c == '\n' || c == '\r' || c == '\U{2028}' || c == '\U{2029}'
  }

  predicate AllWhitespace(s: string) {
    forall k :: 0 <= k < |s| ==> IsWhitespace(s[k])
  }

  /** Lower-case mapping of one character, for the Latin capitals and the
      nine Polish capitals with diacritics; every other character maps to
      itself. */
  function LowerChar(c: char): char {
    if 'A' <= c <= 'Z' then (c as int + 32) as char
    else match c
      case 'Ą' => 'ą'
      case 'Ć' => 'ć'
      case 'Ę' => 'ę'
      case 'Ł' => 'ł'
      case 'Ń' => 'ń'
      case 'Ó' => 'ó'
      case 'Ś' => 'ś'
      case 'Ź' => 'ź'
      case 'Ż' => 'ż'
      case _ => c
  }

  /** Lower-casing maps capitals to small letters, changes nothing else,
      and neither creates nor removes whitespace. */
  lemma LowerCharMeaning(c: char)
    ensures IsWhitespace(LowerChar(c)) <==> IsWhitespace(c)
    ensures 'A' <= c <= 'Z' ==> 'a' <= LowerChar(c) <= 'z'
    ensures !('A' <= c <= 'Z') && LowerChar(c) != c ==> c in "ĄĆĘŁŃÓŚŹŻ" && LowerChar(c) in "ąćęłńóśźż"
    ensures 'A' <= c <= 'Z' ==> LowerChar(c) as int == c as int + 32
    ensures forall i :: 0 <= i < 9 ==> LowerChar("ĄĆĘŁŃÓŚŹŻ"[i]) == "ąćęłńóśźż"[i]
  {
  }

  /** Lower-casing one character keeps white space as white space. */
  lemma LowerKeepsWhitespace(c: char)
    ensures IsWhitespace(LowerChar(c)) <==> IsWhitespace(c)
  {
  }

  /** `toLowerCase`: character by character, never changing the length. */
  function Lower(s: string): (r: string)
    ensures |r| == |s|
  {
    seq(|s|, k requires 0 <= k < |s| => LowerChar(s[k]))
  }

  /** `trimStart`: drops the whitespace prefix. */
  function TrimStart(s: string): (r: string)
    ensures |r| <= |s|
  {
    if |s| > 0 && IsWhitespace(s[0]) then TrimStart(s[1..]) else s
  }

  lemma {:induction false} TrimStartMeaning(s: string)
    ensures var r := TrimStart(s);
            && r == s[|s| - |r|..]
            && AllWhitespace(s[..|s| - |r|])
            && (r == [] || !IsWhitespace(r[0]))
  {
    if |s| > 0 && IsWhitespace(s[0]) {
      TrimStartMeaning(s[1..]);
      var r := TrimStart(s);
      assert s[..|s| - |r|] == [s[0]] + s[1..][..|s| - 1 - |r|];
    }
  }

  /** `trimEnd`: drops the whitespace suffix. */
  function TrimEnd(s: string): (r: string)
    ensures |r| <= |s|
  {
    if |s| > 0 && IsWhitespace(s[|s| - 1]) then TrimEnd(s[..|s| - 1]) else s
  }

  lemma {:induction false} TrimEndMeaning(s: string)
    ensures var r := TrimEnd(s);
            && r == s[..|r|]
            && AllWhitespace(s[|r|..])
            && (r == [] || !IsWhitespace(r[|r| - 1]))
  {
    if |s| > 0 && IsWhitespace(s[|s| - 1]) {
      var t := s[..|s| - 1];
      TrimEndMeaning(t);
      var r := TrimEnd(s);
      assert s[|r|..] == t[|r|..] + [s[|s| - 1]];
    }
  }

  /** `trim`: drops whitespace at both ends. */
  function Trim(s: string): (r: string)
    ensures |r| <= |s|
  {
    TrimEnd(TrimStart(s))
  }

  /** `trim` returns the longest infix of `s` that neither starts nor ends
      with whitespace, everything around it being whitespace; it is empty
      exactly for blank strings. */
  lemma TrimMeaning(s: string)
    ensures var r := Trim(s);
            exists i :: 0 <= i <= |s| - |r| && r == s[i..i + |r|]
                        && AllWhitespace(s[..i]) && AllWhitespace(s[i + |r|..])
    ensures var r := Trim(s); r == [] || (!IsWhitespace(r[0]) && !IsWhitespace(r[|r| - 1]))
    ensures Trim(s) == [] <==> AllWhitespace(s)
  {
    TrimIsInfix(s);
    TrimEnds(s);
    TrimEmptyWhenBlank(s);
  }

  /** The trimmed string sits between two runs of white space. */
  lemma TrimIsInfix(s: string)
    ensures var r := Trim(s);
            var i := |s| - |TrimStart(s)|;
            && i + |r| <= |s| && r == s[i..i + |r|]
            && AllWhitespace(s[..i]) && AllWhitespace(s[i + |r|..])
  {
    var t := TrimStart(s);
    TrimStartMeaning(s);
    TrimEndMeaning(t);
    var i := |s| - |t|;
    assert s[i + |TrimEnd(t)|..] == t[|TrimEnd(t)|..];
  }

  /** A non-empty trimmed string neither starts nor ends with white space. */
  lemma TrimEnds(s: string)
    ensures var r := Trim(s); r == [] || (!IsWhitespace(r[0]) && !IsWhitespace(r[|r| - 1]))
  {
    var t := TrimStart(s);
    TrimStartMeaning(s);
    TrimEndMeaning(t);
  }

  /** Trimming leaves nothing exactly when the string is blank. */
  lemma TrimEmptyWhenBlank(s: string)
    ensures Trim(s) == [] <==> AllWhitespace(s)
  {
    var t := TrimStart(s);
    TrimIsInfix(s);
    TrimEnds(s);
    if Trim(s) == [] {
      var i := |s| - |t|;
      assert s == s[..i] + s[i..];
    }
  }

  /** Trimming a string that is already trimmed gives it back unchanged. */
  lemma TrimIdempotent(s: string)
    ensures Trim(Trim(s)) == Trim(s)
  {
    var r := Trim(s);
    TrimMeaning(s);
    if r != [] {
      assert TrimStart(r) == r;
      assert TrimEnd(r) == r;
    }
  }

  /** The normal form of a survey answer: lower-cased, then trimmed. */
  function Normalize(answer: string): (r: string)
    ensures |r| <= |answer|
  {
    Trim(Lower(answer))
  }

  /** An answer normalises to the empty string exactly when it is blank,
      and a non-empty normal form has no whitespace at either end. */
  lemma NormalizeMeaning(answer: string)
    ensures Normalize(answer) == [] <==> AllWhitespace(answer)
    ensures var r := Normalize(answer); r == [] || (!IsWhitespace(r[0]) && !IsWhitespace(r[|r| - 1]))
  {
    var lower := Lower(answer);
    TrimEmptyWhenBlank(lower);
    TrimEnds(lower);
    LowerKeepsBlank(answer);
  }

  /** Lower-casing keeps a blank string blank and a non-blank one non-blank. */
  lemma LowerKeepsBlank(answer: string)
    ensures AllWhitespace(Lower(answer)) <==> AllWhitespace(answer)
  {
    var lower := Lower(answer);
    forall k | 0 <= k < |answer|
      ensures IsWhitespace(lower[k]) <==> IsWhitespace(answer[k])
    {
      LowerKeepsWhitespace(answer[k]);
    }
  }
}

=== FILE: tiers.dfy ===
/** The score-tier selector: the ascending if-chain that picks the closing
    directive of the prompt, and the six-band interpretation scale printed
    into the same prompt. */
module Tiers {

  /** The six bands, lowest first. */
  datatype Tier = Foundations | Basics | Consistency | Strong | Advanced | Mastery

  /** Position of a band in the ascending order. */
  function Rank(t: Tier): nat {
    match t
    case Foundations => 0
    case Basics => 1
    case Consistency => 2
    case Strong => 3
    case Advanced => 4
    case Mastery => 5
  }

  /** The inclusive upper bounds tested by the if-chain, in order; a score
      above the last one falls into the `else` branch. */
  const UpperBounds: seq<int> := [15, 25, 35, 45, 54]

  /** Number of upper bounds that `score` exceeds. */
  function BoundsExceeded(score: int, bounds: seq<int>): nat {
    if bounds == [] then 0
    else (if score > bounds[0] then 1 else 0) + BoundsExceeded(score, bounds[1..])
  }

  /** The if-chain with `<=` tests on 15, 25, 35, 45 and 54 and a final
      `else`. There is no range check: every integer lands in a band, the
      rank of the band being the number of bounds the score exceeds. */
  function TierOf(score: int): (t: Tier)
    ensures Rank(t) == BoundsExceeded(score, UpperBounds)
  {
    CountExceeded(score);
    if score <= 15 then Foundations
    else if score <= 25 then Basics
    else if score <= 35 then Consistency
    else if score <= 45 then Strong
    else if score <= 54 then Advanced
    else Mastery
  }

  /** The bounds count, unfolded over the five bounds. */
  lemma CountExceeded(score: int)
    ensures BoundsExceeded(score, UpperBounds) ==
              (if score > 15 then 1 else 0) + (if score > 25 then 1 else 0) + (if score > 35 then 1 else 0)
              + (if score > 45 then 1 else 0) + (if score > 54 then 1 else 0)
  {
    var b4: seq<int> := [54];
    var b3: seq<int> := [45, 54];
    var b2: seq<int> := [35, 45, 54];
    var b1: seq<int> := [25, 35, 45, 54];
    assert b4[1..] == [];
    assert BoundsExceeded(score, b4) == (if score > 54 then 1 else 0);
    assert b3[1..] == b4;
    assert BoundsExceeded(score, b3) == (if score > 45 then 1 else 0) + BoundsExceeded(score, b4);
    assert b2[1..] == b3;
    assert BoundsExceeded(score, b2) == (if score > 35 then 1 else 0) + BoundsExceeded(score, b3);
    assert b1[1..] == b2;
    assert BoundsExceeded(score, b1) == (if score > 25 then 1 else 0) + BoundsExceeded(score, b2);
    assert UpperBounds[1..] == b1;
    assert BoundsExceeded(score, UpperBounds) == (if score > 15 then 1 else 0) + BoundsExceeded(score, b1);
  }

  /** A higher score never selects a lower band. */
  lemma TierMonotone(a: int, b: int)
    requires a <= b
    ensures Rank(TierOf(a)) <= Rank(TierOf(b))
  {
  }

  /** Neighbouring scores across each bound land in adjacent, distinct bands. */
  lemma TierBoundaries()
    ensures TierOf(15) == Foundations && TierOf(16) == Basics
    ensures TierOf(25) == Basics && TierOf(26) == Consistency
    ensures TierOf(35) == Consistency && TierOf(36) == Strong
    ensures TierOf(45) == Strong && TierOf(46) == Advanced
    ensures TierOf(54) == Advanced && TierOf(55) == Mastery
  {
  }

  /** Scores outside 0..60 are not refused: above 60 they select the top
      band and below 0 the bottom one. */
  lemma OutOfRangeScores(score: int)
    ensures score > 60 ==> TierOf(score) == Mastery
    ensures score < 0 ==> TierOf(score) == Foundations
  {
  }

  /** A line of the printed interpretation scale: "low-high pkt: caption". */
  datatype ScaleLine = ScaleLine(low: int, high: int, caption: string)

  /** The six-level scale written into the prompt. */
  const InterpretationScale: seq<ScaleLine> := [
    ScaleLine(0, 15, "Fundamenty wymagają budowy"),
    ScaleLine(16, 25, "Pora na strategiczne podstawy"),
    ScaleLine(26, 35, "Dobra baza, brakuje spójności"),
    ScaleLine(36, 45, "Silna pozycja, potencjał wzrostu"),
    ScaleLine(46, 54, "Zaawansowana strategia marki"),
    ScaleLine(55, 60, "Mistrzostwo brandingowe")
  ]

  predicate OnLine(score: int, line: ScaleLine) {
    line.low <= score <= line.high
  }

  /** The printed lines tile 0..60 without gaps or overlaps, and each line
      ends at the bound the if-chain tests. */
  lemma ScaleTilesRange()
    ensures |InterpretationScale| == |UpperBounds| + 1
    ensures InterpretationScale[0].low == 0
    ensures InterpretationScale[|InterpretationScale| - 1].high == 60
    ensures forall i :: 0 <= i < |UpperBounds| ==>
              && InterpretationScale[i].high == UpperBounds[i]
              && InterpretationScale[i + 1].low == UpperBounds[i] + 1
  {
  }

  /** For every score the page can produce, the band the if-chain selects is
      exactly the line of the printed scale that contains the score. */
  lemma TierAgreesWithScale(score: int)
    requires 0 <= score <= 60
    ensures OnLine(score, InterpretationScale[Rank(TierOf(score))])
    ensures forall i :: 0 <= i < |InterpretationScale| && OnLine(score, InterpretationScale[i]) ==>
              i == Rank(TierOf(score))
  {
  }
}
